=== FILE: README.md ===
# sqjobs: the SQS connector and the worker, in Dafny

This project models the two components of sqjobs that carry its delivery
logic, and proves what they promise.

- **The `SQS` connector** (`sqjobs/connectors/sqs.py`). It builds the wire
  envelope `{id, name, args, kwargs}` and rebuilds a job from a received
  payload, defaulting a false `args` to `[]` and a false `kwargs` to `{}`.
  It attaches the transport's metadata under `_metadata`: the receipt handle,
  the receive count and the sent timestamp. It writes dates and datetimes as
  text, and masks the secret key in its text form. It caches one connection,
  and it runs the four queue operations. Each of those raises
  `QueueDoesNotExist` for an unknown queue and then leaves every queue as it
  was. Its `dequeue` polls until a batch is non-empty; with a wait time of
  zero, one empty poll returns `None`.
- **The `Worker`** (`sqjobs/worker.py`). It keeps a registry of job classes
  by `name()`. It builds a job from a payload by looking up the payload's
  `name` and copying three metadata entries onto a fresh job. Its `execute`
  loop runs the jobs one at a time, in broker order, until something raises.

The queue service is abstract. A `QueueService` object maps each existing
queue name to a record of what was sent to that queue, which receipt
handles were deleted and which visibility delays were requested.
`receive_messages` is a finite script of poll results. Python values in
payloads are a datatype (`PyValues.Value`). An object JSON has no form for
stands for one without `__getitem__`. It carries the truth value its own
`__bool__` or `__len__` gives it, and whether it is hashable. With that,
dictionary lookups raise `KeyError` and `TypeError` where Python does.

Two mismatches between the connector and the worker are modelled as written.
Lemmas state what follows from each:

- The worker reads `_metadata['first_execution_on']` (`sqjobs/worker.py:31`),
  but `_decode_message` never writes that key (`sqjobs/connectors/sqs.py:155-159`).
  `Delivery.DecodedPayloadNeverBuilds` shows that no decoded payload can be
  built into a job, whatever the registry holds.
- The registry is keyed by `name()` (`sqjobs/worker.py:18`), but envelopes
  carry `_task_name()` (`sqjobs/connectors/sqs.py:121`). `Jobs.JobClass`
  keeps the two as separate strings. `Delivery.RegisteredClassFound` shows
  that a registered class is found for its own envelopes exactly when the
  two names agree.

Both lemmas take decoding as the connector evidently intends it. As written,
`_decode_message` passes an argument `default` that `json.loads` does not
accept (`sqjobs/connectors/sqs.py:150`), so it raises `TypeError` before
either mismatch is reached; "## Left out" says more.

Files: `wrappers.dfy` (Option, Result, Outcome), `decimal.dfy` (digit strings,
`int()`), `dates.dfy` (dates and their `strftime` formats), `values.dfy`
(Python values), `jobs.dfy` (job classes and job objects), `transport.dfy`
(the queue service), `sqs_protocol.dfy` and `sqs_connector.dfy` (the
connector), `worker.dfy` (the worker), `delivery.dfy` (the two together).

## Model

| member | source | states |
|---|---|---|
| `Decimal.ParseInt` | sqjobs/connectors/sqs.py:152-153 | `int(text)` succeeds exactly when the text is an optional `+` or `-` followed by one or more ASCII digits; the result is the digits' decimal value, negated after `-`; any other text (empty, a bare sign, `+-5`, `1.0`, `a1`) is a `ValueError` (None) |
| `Decimal.ParseShowInt` | sqjobs/connectors/sqs.py:152-153 | `int(str(i)) == i` for every integer, so integer attributes survive their text form |
| `Dates.FormatDate` | sqjobs/connectors/sqs.py:169 | `%Y-%m-%d` gives ten characters with `-` at positions 4 and 7 |
| `Dates.FormatDateTime` | sqjobs/connectors/sqs.py:167 | `%Y-%m-%d %H:%M:%S` gives nineteen characters, the date text followed by the time of day |
| `Dates.FormatDateRoundTrip` | sqjobs/connectors/sqs.py:169 | the date text parses back to the same year, month and day |
| `Dates.FormatDateTimeRoundTrip` | sqjobs/connectors/sqs.py:167 | the datetime text parses back to the date, hour, minute and second; only microseconds are lost |
| `Dates.FormatDateInjective` | sqjobs/connectors/sqs.py:169 | two dates with the same text are the same date |
| `PyValues.Get` | sqjobs/connectors/sqs.py:129-135 | `payload[key]` succeeds exactly on a dict holding the key; otherwise it raises `KeyError(key)` on a dict and `TypeError` on anything else |
| `PyValues.Or` | sqjobs/connectors/sqs.py:134-135 | `v or default` is `v` when `v` is truthy and `default` otherwise |
| `SqsProtocol.SerializeJob` | sqjobs/connectors/sqs.py:118-124 | the envelope has exactly the keys id, name, args and kwargs; id, args and kwargs are the inputs unchanged, and name is the class's `_task_name()` |
| `SqsProtocol.Unserialize` | sqjobs/connectors/sqs.py:126-137 | succeeds exactly when the payload and its `_metadata` hold the keys read; id comes from the payload, queue_name from the caller, and broker_id, retries and created_on from `_metadata`; a false args gives `[]` and a false kwargs `{}`; neither result is None; a failure is a `KeyError` or `TypeError` |
| `SqsProtocol.IntAttribute` | sqjobs/connectors/sqs.py:152-153 | a missing attribute raises `KeyError(name)`, and text that is not an integer raises `ValueError` |
| `SqsProtocol.DecodeMessage` | sqjobs/connectors/sqs.py:149-163 | succeeds exactly when both attributes parse and the body is a dict; the result keeps every body key except `_metadata`, which becomes {id: receipt handle, retries: receive count, created_on: sent timestamp}; a receive-count failure is reported first, then a sent-timestamp failure, and a body that is not a dict raises `TypeError` |
| `SqsProtocol.JsonFormatter` | sqjobs/connectors/sqs.py:165-171 | a datetime, checked before date, gives nineteen-character text that parses back to it; a plain date gives ten-character text that parses back to it; anything else gives None |
| `SqsProtocol.ToWire` | sqjobs/connectors/sqs.py:145-147 | encoding with the hook leaves only JSON values; a date or datetime becomes exactly the text `_json_formatter` returns for it, and any other object becomes `null`; a dict keeps its keys and a list its length, and each entry or item is the encoding of the original, so dates nested in args and kwargs also go over the wire as text |
| `SqsProtocol.ToWireKeepsJson` | sqjobs/connectors/sqs.py:145-147 | a payload that is already JSON is encoded unchanged |
| `SqsProtocol.ToWireIdempotent` | sqjobs/connectors/sqs.py:145-147 | encoding twice is encoding once |
| `SqsProtocol.MaskSecret` | sqjobs/connectors/sqs.py:38 | the mask is the key's own first six characters (fewer for a shorter key), six stars, then the key's own last four characters (fewer for a shorter key) |
| `SqsProtocol.MaskHidesMiddle` | sqjobs/connectors/sqs.py:38 | keys of six or more characters with the same first six and last four characters have the same mask |
| `SqsProtocol.MaskRevealsShortKey` | sqjobs/connectors/sqs.py:38 | a key of at most ten characters can be read back in full from its mask |
| `SqsConnector.Poll` | sqjobs/connectors/sqs.py:78-90 | the loop stops at the first non-empty batch and every earlier poll was empty; with wait time 0 it polls once and may return an empty batch; with any other wait time it never does |
| `SqsConnector.SQS.constructor` | sqjobs/connectors/sqs.py:19-33 | keeps the credentials, region (default `us-east-1`) and `use_ssl` (default true), with no connection cached |
| `SqsConnector.SQS.Connect` | sqjobs/connectors/sqs.py:43-59 | makes a connection from the connector's region and credentials on first use and returns the same object on every later use |
| `SqsConnector.SQS.Repr` | sqjobs/connectors/sqs.py:35-41 | the text is `SQS("` and the access key in full, then `MaskSecret` of the secret key, then the region in quotes, and ends with `True)` or `False)` as `use_ssl` says; the separators `", "`, `", region="` and `", use_ssl=` sit between the parts |
| `SqsConnector.SQS.QueueExists` | sqjobs/connectors/sqs.py:139-143 | the queue lookup succeeds exactly for a queue the service has |
| `SqsConnector.SQS.Enqueue` | sqjobs/connectors/sqs.py:61-69 | an unknown queue raises `QueueDoesNotExist` and no queue changes; otherwise the hook-encoded payload is appended to that queue only; a connection already cached is kept |
| `SqsConnector.SQS.Dequeue` | sqjobs/connectors/sqs.py:71-94 | an unknown queue raises `QueueDoesNotExist` with no receive; otherwise it returns None only for wait time 0 and an empty first poll; any other outcome is the decode of the first message of the first non-empty batch; a connection already cached is kept |
| `SqsConnector.SQS.Delete` | sqjobs/connectors/sqs.py:96-107 | an unknown queue raises `QueueDoesNotExist` and no queue changes; otherwise the handle is marked deleted on that queue only, and repeating it never raises; a connection already cached is kept |
| `SqsConnector.SQS.Retry` | sqjobs/connectors/sqs.py:109-116 | an unknown queue raises `QueueDoesNotExist` and no queue changes; otherwise the handle's visibility delay is set on that queue only and nothing is deleted; a connection already cached is kept |
| `SqsConnector.SQS.UnserializeJob` | sqjobs/connectors/sqs.py:126-137 | raises what `Unserialize` raises, and otherwise returns a fresh job of the given class carrying the payload's id, queue name, broker id, retries and created_on, with the defaulted args and kwargs |
| `SqsConnector.ReprMasksSecret` | sqjobs/connectors/sqs.py:35-41 | the text form does not depend on a secret key's characters beyond its first six and last four |
| `Jobs.Job.constructor` | sqjobs/worker.py:27 | `job_class()` gives a job of that class with none of the modelled attributes assigned |
| `Workers.Resolve` | sqjobs/worker.py:26 | finds the class registered under the payload's string name; an absent name raises `KeyError(name)` and is never skipped; an unhashable name (a list, a dict, or an unhashable object such as a set) raises `TypeError` |
| `Workers.Build` | sqjobs/worker.py:25-33 | succeeds exactly when the name resolves and the payload and its `_metadata` hold the keys read; retries, created_on and first_execution_on come from `_metadata`; args and kwargs are returned unchanged, with no defaulting |
| `Workers.Dispatch` | sqjobs/worker.py:20-23 | the run starts no more jobs than there are payloads, and it starts all of them when nothing raises |
| `Workers.DispatchInOrder` | sqjobs/worker.py:20-23 | the i-th job started is the one built from the i-th payload, with that payload's args and kwargs; every job before the last returned normally |
| `Workers.DispatchStopsAtFailure` | sqjobs/worker.py:20-23 | a run that ends with an exception ended at the first payload that could not be built, or at the last job started, which raised; and when the last job started raised, its `JobRaised` is the exception that ended the run |
| `Workers.UnbuildableStopsRun` | sqjobs/worker.py:20-26 | a payload that cannot be built ends the run with its error, whatever follows it |
| `Workers.RegisterAllLastWins` | sqjobs/worker.py:17-18 | after a series of registrations, a name maps to the last class registered under it |
| `Workers.RegisterAllKeeps` | sqjobs/worker.py:17-18 | registrations under other names leave an entry as it was |
| `Workers.Worker.constructor` | sqjobs/worker.py:7-10 | a new worker holds the given broker and queue name, and its registry is empty |
| `Workers.Worker.RegisterJob` | sqjobs/worker.py:17-18 | the class goes under its `name()` and overwrites any class there; every other entry is unchanged |
| `Workers.Worker.BuildJob` | sqjobs/worker.py:25-33 | raises what `Build` raises, and otherwise returns a fresh job of the resolved class carrying retries, created_on and first_execution_on, with args and kwargs unchanged |
| `Workers.Worker.Execute` | sqjobs/worker.py:20-23 | the jobs started and the exception that ended the loop are those of `Dispatch`; the method has no modifies clause, so the registry does not change |
| `Delivery.DecodeWithAttributes` | sqjobs/connectors/sqs.py:149-159 | a dict body received with integer attributes decodes to that body with exactly those values under `_metadata` |
| `Delivery.UnserializeEnvelope` | sqjobs/connectors/sqs.py:118-137 | unserializing a serialized envelope with metadata attached gives back its id, args and kwargs, with the metadata as broker_id, retries and created_on |
| `Delivery.EnvelopeRoundTrip` | sqjobs/connectors/sqs.py:118-163 | a job with JSON id, a list for args and a dict for kwargs survives serialize, the wire encoding, decode and unserialize, and picks up the handle, receive count and sent time |
| `Delivery.DecodedPayloadNeverBuilds` | sqjobs/worker.py:29-31 | no payload from `_decode_message` can be built by the worker; once the name resolves, the error is `KeyError('first_execution_on')` |
| `Delivery.DecodedPayloadsRunNothing` | sqjobs/worker.py:20-31 | a worker fed decoded payloads starts no job and stops with the first payload's error |
| `Delivery.SerializedNameResolves` | sqjobs/connectors/sqs.py:121 | the worker resolves a decoded envelope by the class's `_task_name()`, and fails with `KeyError` when nothing is registered under it |
| `Delivery.RegisteredClassFound` | sqjobs/worker.py:17-18 | a class registered by `register_job` is found for its own envelopes exactly when its `name()` equals its `_task_name()`, provided nothing else is registered under its task name |

## Left out

- boto3 and botocore: `boto3.resource` is reduced to a `Connection` object that holds its four varying arguments (region, the two credentials and `use_ssl`); the fifth, `service_name='sqs'`, is fixed. `get_queue_by_name` is reduced to membership in `QueueService.queues`, so every `ClientError` reads as "no such queue". `send_message`, `delete_messages` and `change_message_visibility` only update the named queue's record. The arguments `MaxNumberOfMessages`, `WaitTimeSeconds` and `AttributeNames` are not modelled. The service's own behaviour is not modelled either: visibility timeouts, redelivery, receive counting and the link between sent messages and later receives.
- `receive_messages` is a finite script of poll results, unrelated to what the queue's record says was sent.
- SqsConnector.Dequeue: requires a script that contains a non-empty batch when the wait time is not 0, so it does not model a `dequeue` that blocks forever on an empty queue.
- JSON text: `json.dumps` and `json.loads` are library calls. A received body is the already-decoded value, and `ToWire` gives the value whose JSON text `json.dumps` would write. Floats, tuples and non-string dictionary keys in payloads are not modelled. At `sqjobs/connectors/sqs.py:150` the code passes a keyword argument `default` to `json.loads`, which hands unknown keywords to `JSONDecoder`, and `JSONDecoder` has no such parameter. As written, `_decode_message` therefore raises `TypeError` on every message, and so does every `dequeue` that receives one. The model decodes as evidently intended.
- SqsConnector.SQS.Retry: the source calls `change_message_visibility(queue, message_id, delay)` on the `boto3.resource('sqs')` object (`sqjobs/connectors/sqs.py:115`). The SQS service resource has no such action, and boto3 client methods take keyword arguments only, so as written `retry` raises on every existing queue after the existence check. The model records the visibility delay, as evidently intended.
- `_json_formatter` is declared without `self` (`sqjobs/connectors/sqs.py:165`). As written, `json.dumps` therefore raises `TypeError` for any payload holding a date or another object JSON cannot write, so such an `enqueue` raises before the queue lookup. The model gives the formatting the function evidently intends.
- `datetime.fromtimestamp(created_on / 1000)` (`sqjobs/connectors/sqs.py:158`) uses float division and the local time zone. The model keeps `created_on` as the integer milliseconds. The call's failures for out-of-range timestamps (`ValueError`, `OverflowError`, `OSError`) are not modelled either, so `SqsProtocol.DecodeMessage` succeeding "exactly when" holds for the model only.
- Decimal.ParseInt: Python's `int()` also accepts surrounding whitespace, underscores between digits and non-ASCII digits. The model rejects these forms. SQS attributes do not use them.
- Dates: `strftime('%Y')` is modelled as four zero-padded digits. Some platforms do not pad years below 1000. Time zones (`tzinfo`) are not modelled.
- `job.run(*args, **kwargs)` is user code. Whether it raises, from argument unpacking or from the job itself, is the parameter `raises`. The job classes' own code is not modelled: `sqjobs/job.py` is not part of this model.
- `Worker.__repr__` (`sqjobs/worker.py:12-15`) prints the type name of the broker's connector, found by reflection. It is not modelled.
- The brokers (`broker.jobs(queue_name)`) are not part of this model. `execute` runs over a finite sequence of payloads instead of an endless generator. Process termination is left out.
- Logging calls, and the text of exception messages beyond the queue name.
- `sqjobs/utils.py` (factory functions and module scanning by reflection) and `sqjobs/contrib/django/djsqjobs/utils.py` (Django application scanning) are not part of this model.

=== FILE: dates.dfy ===
/**
 * Python `date` and `datetime` values and the two `strftime` formats the
 * connector's JSON hook writes them in: `%Y-%m-%d` and `%Y-%m-%d %H:%M:%S`.
 */
module Dates {
  import opened Wrappers
  import opened Decimal

  datatype DateFields = DateFields(year: int, month: int, day: int) {
    /** What Python's `date` constructor accepts. */
    predicate Valid() {
      1 <= year <= 9999 && 1 <= month <= 12 && 1 <= day <= DaysInMonth(year, month)
    }
  }

  predicate IsLeapYear(year: int) {
    year % 4 == 0 && (year % 100 != 0 || year % 400 == 0)
  }

  function DaysInMonth(year: int, month: int): (n: int)
    ensures 28 <= n <= 31
  {
    if month == 2 then (if IsLeapYear(year) then 29 else 28)
    else if month == 4 || month == 6 || month == 9 || month == 11 then 30
    else 31
  }

  /** A `date` object: only valid calendar dates exist. */
  type Date = d: DateFields | d.Valid() witness DateFields(1, 1, 1)

  datatype DateTimeFields = DateTimeFields(date: Date, hour: int, minute: int, second: int, microsecond: int) {
    predicate Valid() {
      0 <= hour < 24 && 0 <= minute < 60 && 0 <= second < 60 && 0 <= microsecond < 1000000
    }
  }

  /** A naive `datetime` object (a `date` plus a time of day). */
  type DateTime = t: DateTimeFields | t.Valid() witness DateTimeFields(DateFields(1, 1, 1), 0, 0, 0, 0)

  /** `d.strftime('%Y-%m-%d')`. */
  function FormatDate(d: Date): (s: string)
    ensures |s| == 10 && s[4] == '-' && s[7] == '-'
  {
    Pad(d.year, 4) + "-" + Pad(d.month, 2) + "-" + Pad(d.day, 2)
  }

  /** `t.strftime('%Y-%m-%d %H:%M:%S')`: microseconds are not written. */
  function FormatDateTime(t: DateTime): (s: string)
    ensures |s| == 19 && s[10] == ' ' && s[13] == ':' && s[16] == ':'
    ensures s[..10] == FormatDate(t.date)
  {
    var s := FormatDate(t.date) + " " + Pad(t.hour, 2) + ":" + Pad(t.minute, 2) + ":" + Pad(t.second, 2);
    assert s[..10] == FormatDate(t.date);
    s
  }

  /** Reads `YYYY-MM-DD` back into its three numbers; the inverse of `FormatDate`. */
  function ParseDate(s: string): Option<DateFields> {
    if |s| == 10 && s[4] == '-' && s[7] == '-'
       && AllDigits(s[..4]) && AllDigits(s[5..7]) && AllDigits(s[8..])
    then Some(DateFields(Value(s[..4]), Value(s[5..7]), Value(s[8..])))
    else None
  }

  /** The fields `FormatDateTime` writes: the date and the time of day to the second. */
  datatype Stamp = Stamp(date: DateFields, hour: int, minute: int, second: int)

  /** Reads `YYYY-MM-DD HH:MM:SS` back; the inverse of `FormatDateTime` up to microseconds. */
  function ParseDateTime(s: string): Option<Stamp> {
    if |s| == 19 && s[10] == ' ' && s[13] == ':' && s[16] == ':'
       && ParseDate(s[..10]).Some?
       && AllDigits(s[11..13]) && AllDigits(s[14..16]) && AllDigits(s[17..])
    then Some(Stamp(ParseDate(s[..10]).value, Value(s[11..13]), Value(s[14..16]), Value(s[17..])))
    else None
  }

  /** The date format loses nothing: the text determines the date. */
  lemma FormatDateRoundTrip(d: Date)
    ensures ParseDate(FormatDate(d)) == Some(d)
  {
    var y, m, dd := Pad(d.year, 4), Pad(d.month, 2), Pad(d.day, 2);
    var s := FormatDate(d);
    assert s == y + "-" + m + "-" + dd;
    assert s[..4] == y && s[5..7] == m && s[8..] == dd;
    assert Pow10(4) == 10000 && Pow10(2) == 100;
    PadValue(d.year, 4);
    PadValue(d.month, 2);
    PadValue(d.day, 2);
  }

  /** The datetime format keeps everything but the microseconds. */
  lemma FormatDateTimeRoundTrip(t: DateTime)
    ensures ParseDateTime(FormatDateTime(t)) == Some(Stamp(t.date, t.hour, t.minute, t.second))
  {
    var hh, mm, ss := Pad(t.hour, 2), Pad(t.minute, 2), Pad(t.second, 2);
    var s := FormatDateTime(t);
    assert s == FormatDate(t.date) + " " + hh + ":" + mm + ":" + ss;
    assert s[11..13] == hh && s[14..16] == mm && s[17..] == ss;
    FormatDateRoundTrip(t.date);
    assert Pow10(2) == 100;
    PadValue(t.hour, 2);
    PadValue(t.minute, 2);
    PadValue(t.second, 2);
  }

  /** Two dates with the same text are the same date. */
  lemma FormatDateInjective(d: Date, e: Date)
    requires FormatDate(d) == FormatDate(e)
    ensures d == e
  {
    FormatDateRoundTrip(d);
    FormatDateRoundTrip(e);
  }
}

=== FILE: decimal.dfy ===
/**
 * Decimal digit strings: Python's `int(text)` on the integer attributes the
 * queue service hands back, and the zero-padded fields `strftime` writes.
 */
module Decimal {
  import opened Wrappers

  predicate IsDigit(c: char) { '0' <= c <= '9' }

  predicate AllDigits(s: string) {
    forall i :: 0 <= i < |s| ==> IsDigit(s[i])
  }

  function DigitValue(c: char): (d: nat)
    requires IsDigit(c)
    ensures d < 10
  {
    c as int - '0' as int
  }

  function DigitChar(d: nat): (c: char)
    requires d < 10
    ensures IsDigit(c) && DigitValue(c) == d
  {
    ('0' as int + d) as char
  }

  function Pow10(k: nat): (p: nat)
    ensures p >= 1
  {
    if k == 0 then 1 else 10 * Pow10(k - 1)
  }

  /** The number a string of decimal digits denotes (most significant digit first). */
  function Value(s: string): nat
    requires AllDigits(s)
  {
    if s == [] then 0 else Value(s[..|s| - 1]) * 10 + DigitValue(s[|s| - 1])
  }

  /** `n` written in decimal without leading zeros, as `str(n)` does. */
  function Show(n: nat): (s: string)
    ensures |s| >= 1 && AllDigits(s)
  {
    if n < 10 then [DigitChar(n)] else Show(n / 10) + [DigitChar(n % 10)]
  }

  /** `n` written with exactly `width` digits, zero-padded on the left (`%02d`, `%04d`). */
  function Pad(n: nat, width: nat): (s: string)
    ensures |s| == width && AllDigits(s)
  {
    if width == 0 then "" else Pad(n / 10, width - 1) + [DigitChar(n % 10)]
  }

  /** `str(i)` for any integer. */
  function ShowInt(i: int): (s: string)
    ensures |s| >= 1
  {
    if i < 0 then "-" + Show(-i) else Show(i)
  }

  /** Whether the text starts with a sign character. */
  predicate Signed(s: string) {
    s != [] && (s[0] == '-' || s[0] == '+')
  }

  /** The text after an optional leading sign. */
  function Magnitude(s: string): (m: string)
    ensures Signed(s) ==> m == s[1..]
    ensures !Signed(s) ==> m == s
  {
    if Signed(s) then s[1..] else s
  }

  /**
   * Python's `int(text)` restricted to the forms the model admits: an optional
   * `+` or `-` followed by at least one ASCII digit. Anything else raises
   * `ValueError`, here `None`.
   */
  function ParseInt(s: string): (r: Option<int>)
    ensures r.Some? <==> Magnitude(s) != [] && AllDigits(Magnitude(s))
    ensures r.Some? && s[0] == '-' ==> r.value + Value(Magnitude(s)) == 0
    ensures r.Some? && s[0] != '-' ==> r.value == Value(Magnitude(s))
    ensures AllDigits(s) && s != [] ==> r == Some(Value(s))
    ensures s == [] || s == "-" || s == "+" ==> r == None
  {
    if s == [] then None
    else if s[0] == '-' || s[0] == '+' then
      var digits := s[1..];
      if digits != [] && AllDigits(digits) then
        var magnitude: int := Value(digits);
        Some(if s[0] == '-' then -magnitude else magnitude)
      else None
    else if AllDigits(s) then Some(Value(s))
    else None
  }

  lemma ValueSnoc(s: string, c: char)
    requires AllDigits(s) && IsDigit(c)
    ensures AllDigits(s + [c]) && Value(s + [c]) == Value(s) * 10 + DigitValue(c)
  {
  }


  /** Reading back what `Show` writes gives the number again. */
  lemma {:induction false} ShowValue(n: nat)
    ensures Value(Show(n)) == n
  {
    if n >= 10 {
      ShowValue(n / 10);
      ValueSnoc(Show(n / 10), DigitChar(n % 10));
    }
  }

  /** Reading back a zero-padded field gives the number, when it fits in the width. */
  lemma {:induction false} PadValue(n: nat, width: nat)
    requires n < Pow10(width)
    ensures Value(Pad(n, width)) == n
  {
    if width == 0 {
      assert n == 0;
    } else {
      assert n / 10 < Pow10(width - 1);
      PadValue(n / 10, width - 1);
      ValueSnoc(Pad(n / 10, width - 1), DigitChar(n % 10));
    }
  }

  /** `int(str(i)) == i`: the integer attributes survive their text form. */
  lemma ParseShowInt(i: int)
    ensures ParseInt(ShowInt(i)) == Some(i)
  {
    ShowValue(if i < 0 then -i else i);
    if i < 0 {
      assert ShowInt(i)[1..] == Show(-i);
    } else {
      assert ShowInt(i)[0] != '-' && ShowInt(i)[0] != '+';
    }
  }
}

=== FILE: delivery.dfy ===
/**
 * What follows from putting the connector and the worker together: a job's
 * journey through a queue, and the two places where what the connector
 * produces is not what the worker expects.
 */
module Delivery {
  import opened Wrappers
  import opened Decimal
  import opened PyValues
  import opened Jobs
  import opened Transport
  import opened SqsProtocol
  import opened Workers

  /** The attributes the queue service reports for a delivery. */
  function Attributes(receiveCount: int, sentTimestamp: int): map<string, string> {
    map[ReceiveCountAttribute := ShowInt(receiveCount), SentTimestampAttribute := ShowInt(sentTimestamp)]
  }

  /** Decoding a dictionary body that carries the service's attributes attaches exactly those values. */
  lemma DecodeWithAttributes(body: Value, receiptHandle: string, receiveCount: int, sentTimestamp: int)
    requires body.Dict?
    ensures DecodeMessage(Message(body, Attributes(receiveCount, sentTimestamp), receiptHandle))
      == Ok(Dict(body.entries["_metadata" := Metadata(receiptHandle, receiveCount, sentTimestamp)]))
  {
    var attributes := Attributes(receiveCount, sentTimestamp);
    ParseShowInt(receiveCount);
    ParseShowInt(sentTimestamp);
    assert ReceiveCountAttribute != SentTimestampAttribute by {
      assert ReceiveCountAttribute[0] != SentTimestampAttribute[0];
    }
    assert attributes[ReceiveCountAttribute] == ShowInt(receiveCount);
    assert attributes[SentTimestampAttribute] == ShowInt(sentTimestamp);
  }

  /** Unserializing an envelope with metadata attached gives back what was serialized. */
  lemma UnserializeEnvelope(
    jobClass: JobClass, jobId: Value, args: seq<Value>, kwargs: map<string, Value>,
    queueName: string, receiptHandle: string, receiveCount: int, sentTimestamp: int)
    ensures
      var envelope := SerializeJob(jobClass, jobId, List(args), Dict(kwargs));
      var payload := Dict(envelope.entries["_metadata" := Metadata(receiptHandle, receiveCount, sentTimestamp)]);
      Unserialize(queueName, payload)
        == Ok(Unserialized(jobId, queueName, Str(receiptHandle), Int(receiveCount), Int(sentTimestamp),
                           List(args), Dict(kwargs)))
  {
  }


  /**
   * A job serialized, sent, received with the service's attributes and
   * unserialized comes back with its id, its arguments, the receipt handle as
   * broker id, the receive count as retries and the sent time as created_on.
   */
  lemma EnvelopeRoundTrip(
    jobClass: JobClass, jobId: Value, args: seq<Value>, kwargs: map<string, Value>,
    queueName: string, receiptHandle: string, receiveCount: int, sentTimestamp: int)
    requires IsJson(jobId) && IsJson(List(args)) && IsJson(Dict(kwargs))
    ensures
      var body := ToWire(SerializeJob(jobClass, jobId, List(args), Dict(kwargs)));
      var decoded := DecodeMessage(Message(body, Attributes(receiveCount, sentTimestamp), receiptHandle));
      && decoded.Ok?
      && Unserialize(queueName, decoded.value)
         == Ok(Unserialized(jobId, queueName, Str(receiptHandle), Int(receiveCount), Int(sentTimestamp),
                            List(args), Dict(kwargs)))
  {
    var envelope := SerializeJob(jobClass, jobId, List(args), Dict(kwargs));
    EnvelopeIsJson(jobClass, jobId, List(args), Dict(kwargs));
    ToWireKeepsJson(envelope);
    DecodeWithAttributes(envelope, receiptHandle, receiveCount, sentTimestamp);
    UnserializeEnvelope(jobClass, jobId, args, kwargs, queueName, receiptHandle, receiveCount, sentTimestamp);
  }

  /** An envelope built from JSON values is itself JSON. */
  lemma EnvelopeIsJson(jobClass: JobClass, jobId: Value, args: Value, kwargs: Value)
    requires IsJson(jobId) && IsJson(args) && IsJson(kwargs)
    ensures IsJson(SerializeJob(jobClass, jobId, args, kwargs))
  {
  }


  /**
   * The worker reads `_metadata['first_execution_on']`, which decoding never
   * writes: whatever the registry, a payload straight from `_decode_message`
   * cannot be built into a job.
   */
  lemma DecodedPayloadNeverBuilds(registry: map<string, JobClass>, message: Message)
    requires DecodeMessage(message).Ok?
    ensures var payload := DecodeMessage(message).value;
      && Build(registry, payload).Err?
      && (Resolve(registry, payload).Ok? ==> Build(registry, payload) == Err(KeyError(Str("first_execution_on"))))
  {
  }


  /** Hence a worker fed decoded payloads runs no job at all and stops at the first one. */
  lemma DecodedPayloadsRunNothing(registry: map<string, JobClass>, messages: seq<Message>, raises: Invocation -> bool)
    requires messages != []
    requires forall i :: 0 <= i < |messages| ==> DecodeMessage(messages[i]).Ok?
    ensures var payloads := seq(|messages|, i requires 0 <= i < |messages| => DecodeMessage(messages[i]).value);
      var r := Dispatch(registry, payloads, raises);
      r.trace == [] && r.error == Some(Build(registry, payloads[0]).error)
  {
  }


  /**
   * The envelope carries `_task_name()`, the registry is keyed by `name()`:
   * the worker finds whichever class is registered under `_task_name()`.
   */
  lemma SerializedNameResolves(
    registry: map<string, JobClass>, jobClass: JobClass, jobId: Value, args: Value, kwargs: Value, message: Message)
    requires message.body == ToWire(SerializeJob(jobClass, jobId, args, kwargs))
    requires DecodeMessage(message).Ok?
    ensures Resolve(registry, DecodeMessage(message).value)
      == if jobClass.taskName in registry then Ok(registry[jobClass.taskName])
         else Err(KeyError(Str(jobClass.taskName)))
  {
  }


  /**
   * So a class registered by `register_job` is found for its own envelopes
   * exactly when its `name()` and `_task_name()` agree, unless another class
   * sits under its task name.
   */
  lemma RegisteredClassFound(
    registry: map<string, JobClass>, jobClass: JobClass, jobId: Value, args: Value, kwargs: Value, message: Message)
    requires message.body == ToWire(SerializeJob(jobClass, jobId, args, kwargs))
    requires DecodeMessage(message).Ok?
    requires jobClass.taskName !in registry
    ensures var registered := registry[jobClass.name := jobClass];
      Resolve(registered, DecodeMessage(message).value).Ok?
      <==> jobClass.name == jobClass.taskName
  {
  }

}

=== FILE: jobs.dfy ===
/**
 * Job classes and job objects as the connector and the worker use them. The
 * job base class itself (sqjobs/job.py) is not part of this model: a class is
 * reduced to its identity and the two names it reports.
 */
module Jobs {
  import opened Wrappers
  import opened PyValues

  /**
   * A job class. `name` is what `job_class.name()` returns and is the key the
   * worker registers it under; `taskName` is what `job_class._task_name()`
   * returns and is what the connector writes into an envelope. The model
   * assumes no relation between the two.
   */
  datatype JobClass = JobClass(qualifiedName: string, name: string, taskName: string)

  /**
   * A job object, `job_class()`. Each attribute the connector or the worker
   * assigns is `Some` once assigned; `None` means the modelled code has not
   * assigned it.
   */
  class Job {
    const jobClass: JobClass
    var id: Option<Value>
    var queueName: Option<string>
    var brokerId: Option<Value>
    var retries: Option<Value>
    var createdOn: Option<Value>
    var firstExecutionOn: Option<Value>

    constructor (jobClass: JobClass)
      ensures this.jobClass == jobClass
      ensures id == None && queueName == None && brokerId == None
      ensures retries == None && createdOn == None && firstExecutionOn == None
    {
      this.jobClass := jobClass;
      id, queueName, brokerId := None, None, None;
      retries, createdOn, firstExecutionOn := None, None, None;
    }
  }
}

=== FILE: sqs_connector.dfy ===
/**
 * The `SQS` connector class (sqjobs/connectors/sqs.py): its credentials, its
 * cached connection, and the four operations that reach a queue. Each one
 * looks the queue up first and raises `QueueDoesNotExist` without touching
 * any queue when the lookup fails.
 */
module SqsConnector {
  import opened Wrappers
  import opened PyValues
  import opened Jobs
  import opened Transport
  import opened SqsProtocol

  /**
   * The receive script `dequeue` consumes: one poll result per call of
   * `receive_messages`. There is always a first result, and when the call
   * blocks (`waitTime != 0`) some result is non-empty, so the loop ends.
   */
  predicate PollsEnd(waitTime: int, script: seq<seq<Message>>) {
    && |script| > 0
    && (waitTime != 0 ==> exists k :: 0 <= k < |script| && script[k] != [])
  }

  /**
   * The `while not messages` loop of `dequeue`: poll until a batch is
   * non-empty, except that with `waitTime == 0` one empty poll ends it.
   */
  method Poll(waitTime: int, script: seq<seq<Message>>) returns (messages: seq<Message>, polls: nat)
    requires PollsEnd(waitTime, script)
    ensures 1 <= polls <= |script| && messages == script[polls - 1]
    ensures forall j :: 0 <= j < polls - 1 ==> script[j] == []
    ensures messages == [] ==> waitTime == 0
    ensures waitTime == 0 ==> polls == 1
  {
    messages, polls := [], 0;
    while messages == []
      invariant polls <= |script|
      invariant waitTime == 0 ==> polls <= 1
      invariant waitTime == 0 && messages == [] ==> polls == 0
      invariant messages == [] ==> forall j :: 0 <= j < polls ==> script[j] == []
      invariant messages == [] && waitTime != 0 ==> exists k :: polls <= k < |script| && script[k] != []
      invariant messages != [] ==> 1 <= polls && messages == script[polls - 1]
      invariant messages != [] ==> forall j :: 0 <= j < polls - 1 ==> script[j] == []
      decreases |script| - polls
    {
      messages := script[polls];
      polls := polls + 1;
      if messages == [] && waitTime == 0 {
        return;  // non-blocking mode
      }
    }
  }

  /** What `dequeue` returns for the batch the loop stopped at. */
  function Dequeued(batch: seq<Message>): Result<Option<Value>, Error> {
    if batch == [] then Ok(None)
    else match DecodeMessage(batch[0])
      case Ok(payload) => Ok(Some(payload))
      case Err(e) => Err(e)
  }

  class SQS {
    const accessKey: string
    const secretKey: string
    const region: string
    const useSsl: bool
    /** The queue service the credentials reach. */
    const service: QueueService
    var cachedConnection: Connection?

    constructor (service: QueueService, accessKey: string, secretKey: string,
                 region: string := "us-east-1", useSsl: bool := true)
      ensures this.service == service && this.accessKey == accessKey && this.secretKey == secretKey
      ensures this.region == region && this.useSsl == useSsl
      ensures cachedConnection == null
    {
      this.service := service;
      this.accessKey, this.secretKey := accessKey, secretKey;
      this.region, this.useSsl := region, useSsl;
      cachedConnection := null;
    }

    /** `__repr__`: the access key in full, the secret key masked. */
    function Repr(): (text: string)
      ensures var mask := MaskSecret(secretKey);
        var at := 5 + |accessKey| + 4;
        var from := at + |mask| + 11;
        var flag := if useSsl then "True)" else "False)";
        && |text| == from + |region| + 11 + |flag|
        && text[..5] == "SQS(\"" && text[5..5 + |accessKey|] == accessKey
        && text[at..at + |mask|] == mask
        && text[at - 4..at] == "\", \""
        && text[from - 11..from] == "\", region=\""
        && text[from..from + |region|] == region
        && text[from + |region|..|text| - |flag|] == "\", use_ssl="
        && text[|text| - |flag|..] == flag
    {
      var mask := MaskSecret(secretKey);
      var flag := if useSsl then "True)" else "False)";
      LayoutFront(accessKey, mask, region, flag);
      LayoutMiddle(accessKey, mask, region, flag);
      LayoutBack(accessKey, mask, region, flag);
      Layout(accessKey, mask, region, flag)
    }

    /** A connection made from this connector's region and credentials is cached. */
    predicate Connected()
      reads this, cachedConnection
    {
      && cachedConnection != null
      && cachedConnection.region == region
      && cachedConnection.accessKey == accessKey
      && cachedConnection.secretKey == secretKey
      && cachedConnection.useSsl == useSsl
    }

    /** The `connection` property: made on first use, the same object ever after. */
    method Connect() returns (c: Connection)
      requires cachedConnection != null ==> Connected()
      modifies this`cachedConnection
      ensures cachedConnection == c && Connected()
      ensures old(cachedConnection) != null ==> c == old(cachedConnection)
      ensures old(cachedConnection) == null ==> fresh(c)
    {
      if cachedConnection == null {
        cachedConnection := new Connection(region, accessKey, secretKey, useSsl);
      }
      c := cachedConnection;
    }

    /** `_get_queue`: whether the service knows the queue. */
    method QueueExists(name: string) returns (found: bool)
      requires cachedConnection != null ==> Connected()
      modifies this`cachedConnection
      ensures Connected() && (old(cachedConnection) != null ==> cachedConnection == old(cachedConnection))
      ensures found <==> name in service.queues
    {
      var _ := Connect();
      found := name in service.queues;
    }

    /** `enqueue`: send the payload, dates written as text, to an existing queue. */
    method Enqueue(queueName: string, payload: Value) returns (status: Status)
      requires cachedConnection != null ==> Connected()
      modifies this`cachedConnection, service
      ensures Connected() && (old(cachedConnection) != null ==> cachedConnection == old(cachedConnection))
      ensures queueName !in old(service.queues) ==>
        status == Fail(QueueDoesNotExist(queueName)) && service.queues == old(service.queues)
      ensures queueName in old(service.queues) ==>
        status == Pass && service.queues == old(service.queues)[queueName := old(service.queues)[queueName].Send(ToWire(payload))]
    {
      var message := ToWire(payload);
      var found := QueueExists(queueName);
      if !found {
        return Fail(QueueDoesNotExist(queueName));
      }
      service.queues := service.queues[queueName := service.queues[queueName].Send(message)];
      status := Pass;
    }

    /**
     * `dequeue`: poll an existing queue and decode the first message of the
     * first non-empty batch; `Ok(None)` only in non-blocking mode. `polls`
     * counts the calls of `receive_messages`.
     */
    method Dequeue(queueName: string, script: seq<seq<Message>>, waitTime: int := 20)
      returns (r: Result<Option<Value>, Error>, polls: nat)
      requires cachedConnection != null ==> Connected()
      requires PollsEnd(waitTime, script)
      modifies this`cachedConnection
      ensures Connected() && (old(cachedConnection) != null ==> cachedConnection == old(cachedConnection))
      ensures queueName !in service.queues ==> r == Err(QueueDoesNotExist(queueName)) && polls == 0
      ensures queueName in service.queues ==>
        && 1 <= polls <= |script|
        && (forall j :: 0 <= j < polls - 1 ==> script[j] == [])
        && (waitTime == 0 ==> polls == 1)
        && (script[polls - 1] == [] ==> waitTime == 0 && r == Ok(None))
        && (script[polls - 1] != [] ==> r == Dequeued(script[polls - 1]) && r != Ok(None))
    {
      var found := QueueExists(queueName);
      if !found {
        return Err(QueueDoesNotExist(queueName)), 0;
      }
      var messages;
      messages, polls := Poll(waitTime, script);
      r := Dequeued(messages);
    }

    /** `delete`: acknowledge a delivery on an existing queue; repeating it changes nothing more. */
    method Delete(queueName: string, receiptHandle: string) returns (status: Status)
      requires cachedConnection != null ==> Connected()
      modifies this`cachedConnection, service
      ensures Connected() && (old(cachedConnection) != null ==> cachedConnection == old(cachedConnection))
      ensures queueName !in old(service.queues) ==>
        status == Fail(QueueDoesNotExist(queueName)) && service.queues == old(service.queues)
      ensures queueName in old(service.queues) ==>
        status == Pass && service.queues == old(service.queues)[queueName := old(service.queues)[queueName].Delete(receiptHandle)]
    {
      var found := QueueExists(queueName);
      if !found {
        return Fail(QueueDoesNotExist(queueName));
      }
      service.queues := service.queues[queueName := service.queues[queueName].Delete(receiptHandle)];
      status := Pass;
    }

    /** `retry`: make a delivery visible again only after `delay` seconds, without deleting it. */
    method Retry(queueName: string, receiptHandle: string, delay: int) returns (status: Status)
      requires cachedConnection != null ==> Connected()
      modifies this`cachedConnection, service
      ensures Connected() && (old(cachedConnection) != null ==> cachedConnection == old(cachedConnection))
      ensures queueName !in old(service.queues) ==>
        status == Fail(QueueDoesNotExist(queueName)) && service.queues == old(service.queues)
      ensures queueName in old(service.queues) ==>
        status == Pass && service.queues == old(service.queues)[queueName := old(service.queues)[queueName].Delay(receiptHandle, delay)]
    {
      var found := QueueExists(queueName);
      if !found {
        return Fail(QueueDoesNotExist(queueName));
      }
      var _ := Connect();
      service.queues := service.queues[queueName := service.queues[queueName].Delay(receiptHandle, delay)];
      status := Pass;
    }

    /** `unserialize_job`: a fresh job of the given class carrying what `Unserialize` computes. */
    method UnserializeJob(jobClass: JobClass, queueName: string, payload: Value)
      returns (r: Result<(Job, Value, Value), Error>)
      ensures Unserialize(queueName, payload).Err? ==> r == Err(Unserialize(queueName, payload).error)
      ensures Unserialize(queueName, payload).Ok? ==>
        var u := Unserialize(queueName, payload).value;
        && r.Ok?
        && var (job, args, kwargs) := r.value;
        && fresh(job) && job.jobClass == jobClass
        && job.id == Some(u.id) && job.queueName == Some(u.queueName) && job.brokerId == Some(u.brokerId)
        && job.retries == Some(u.retries) && job.createdOn == Some(u.createdOn)
        && job.firstExecutionOn == None
        && args == u.args && kwargs == u.kwargs
    {
      var job := new Job(jobClass);
      var u :- Unserialize(queueName, payload);
      job.id := Some(u.id);
      job.queueName := Some(u.queueName);
      job.brokerId := Some(u.brokerId);
      job.retries := Some(u.retries);
      job.createdOn := Some(u.createdOn);
      return Ok((job, u.args, u.kwargs));
    }
  }

  /** The `__repr__` format string filled in. */
  function Layout(accessKey: string, mask: string, region: string, flag: string): string {
    "SQS(\"" + accessKey + "\", \"" + mask + "\", region=\"" + region + "\", use_ssl=" + flag
  }

  lemma LayoutFront(accessKey: string, mask: string, region: string, flag: string)
    ensures var text := Layout(accessKey, mask, region, flag);
      var at := 5 + |accessKey| + 4;
      && |text| == at + |mask| + 11 + |region| + 11 + |flag|
      && text[..5] == "SQS(\"" && text[5..5 + |accessKey|] == accessKey
      && text[at - 4..at] == "\", \""
  {
    var front := "SQS(\"" + accessKey + "\", \"";
    var text := Layout(accessKey, mask, region, flag);
    assert text == front + (mask + "\", region=\"" + region + "\", use_ssl=" + flag);
    assert text[..|front|] == front;
  }

  lemma LayoutMiddle(accessKey: string, mask: string, region: string, flag: string)
    ensures var text := Layout(accessKey, mask, region, flag);
      var at := 5 + |accessKey| + 4;
      var from := at + |mask| + 11;
      && |text| == from + |region| + 11 + |flag|
      && text[at..at + |mask|] == mask
      && text[from - 11..from] == "\", region=\""
      && text[from..from + |region|] == region
  {
    var front := "SQS(\"" + accessKey + "\", \"";
    var middle := mask + "\", region=\"" + region;
    var back := "\", use_ssl=" + flag;
    var text := Layout(accessKey, mask, region, flag);
    assert text == front + middle + back;
    assert text[|front|..|front| + |middle|] == middle;
  }

  lemma LayoutBack(accessKey: string, mask: string, region: string, flag: string)
    ensures var text := Layout(accessKey, mask, region, flag);
      && |text| >= 11 + |flag|
      && text[|text| - |flag| - 11..|text| - |flag|] == "\", use_ssl="
      && text[|text| - |flag|..] == flag
  {
    var front := "SQS(\"" + accessKey + "\", \"" + mask + "\", region=\"" + region;
    var text := Layout(accessKey, mask, region, flag);
    assert text == front + ("\", use_ssl=" + flag);
  }

  /** The text form never depends on the secret key beyond its first six and last four characters. */
  lemma ReprMasksSecret(a: SQS, b: SQS)
    requires a.accessKey == b.accessKey && a.region == b.region && a.useSsl == b.useSsl
    requires |a.secretKey| >= 6 && |b.secretKey| >= 6
    requires a.secretKey[..6] == b.secretKey[..6]
    requires a.secretKey[|a.secretKey| - 4..] == b.secretKey[|b.secretKey| - 4..]
    ensures a.Repr() == b.Repr()
  {
  }

}

=== FILE: sqs_protocol.dfy ===
/**
 * The pure part of the SQS connector (sqjobs/connectors/sqs.py): the wire
 * envelope, rebuilding a job from a received payload, attaching the
 * transport's metadata to a received message, the JSON hook for dates, and
 * the masking of the secret key in the connector's text form.
 */
module SqsProtocol {
  import opened Wrappers
  import opened Decimal
  import opened Dates
  import opened PyValues
  import opened Jobs
  import opened Transport

  const ReceiveCountAttribute := "ApproximateReceiveCount"
  const SentTimestampAttribute := "SentTimestamp"

  // ---------------------------------------------------------------------------
  // The envelope

  /** `serialize_job`: the envelope a job travels in. */
  function SerializeJob(jobClass: JobClass, jobId: Value, args: Value, kwargs: Value): (envelope: Value)
    ensures envelope.Dict? && envelope.entries.Keys == {"id", "name", "args", "kwargs"}
    ensures envelope.entries["id"] == jobId && envelope.entries["name"] == Str(jobClass.taskName)
    ensures envelope.entries["args"] == args && envelope.entries["kwargs"] == kwargs
  {
    Dict(map["id" := jobId, "name" := Str(jobClass.taskName), "args" := args, "kwargs" := kwargs])
  }

  /** The `_metadata` dictionary `_decode_message` attaches. */
  function Metadata(receiptHandle: string, retries: int, createdOn: int): Value {
    Dict(map["id" := Str(receiptHandle), "retries" := Int(retries), "created_on" := Int(createdOn)])
  }

  // ---------------------------------------------------------------------------
  // Rebuilding a job

  /** The attributes `unserialize_job` assigns, and the arguments it returns. */
  datatype Unserialized = Unserialized(
    id: Value, queueName: string, brokerId: Value, retries: Value, createdOn: Value,
    args: Value, kwargs: Value)

  /** The keys `unserialize_job` reads: it fails exactly when one of them is missing. */
  predicate HasEnvelopeAndMetadata(payload: Value) {
    && payload.Dict?
    && {"id", "_metadata", "args", "kwargs"} <= payload.entries.Keys
    && payload.entries["_metadata"].Dict?
    && {"id", "retries", "created_on"} <= payload.entries["_metadata"].entries.Keys
  }

  /**
   * `unserialize_job`, as values: the job's identity comes from the payload,
   * its queue from the caller and its delivery data from `_metadata`; a false
   * `args` becomes `[]` and a false `kwargs` becomes `{}`.
   */
  function Unserialize(queueName: string, payload: Value): (r: Result<Unserialized, Error>)
    ensures r.Ok? <==> HasEnvelopeAndMetadata(payload)
    ensures r.Err? ==> r.error.KeyError? || r.error == TypeError
    ensures r.Ok? ==>
      var meta := payload.entries["_metadata"].entries;
      && r.value.id == payload.entries["id"]
      && r.value.queueName == queueName
      && r.value.brokerId == meta["id"]
      && r.value.retries == meta["retries"]
      && r.value.createdOn == meta["created_on"]
    ensures r.Ok? ==>
      && (Truthy(payload.entries["args"]) ==> r.value.args == payload.entries["args"])
      && (!Truthy(payload.entries["args"]) ==> r.value.args == List([]))
      && (Truthy(payload.entries["kwargs"]) ==> r.value.kwargs == payload.entries["kwargs"])
      && (!Truthy(payload.entries["kwargs"]) ==> r.value.kwargs == Dict(map[]))
    ensures r.Ok? ==> r.value.args != Null && r.value.kwargs != Null
  {
    var id :- Get(payload, "id");
    var meta :- Get(payload, "_metadata");
    var brokerId :- Get(meta, "id");
    var retries :- Get(meta, "retries");
    var createdOn :- Get(meta, "created_on");
    var args :- Get(payload, "args");
    var kwargs :- Get(payload, "kwargs");
    Ok(Unserialized(id, queueName, brokerId, retries, createdOn, Or(args, List([])), Or(kwargs, Dict(map[]))))
  }

  // ---------------------------------------------------------------------------
  // Decoding a received message

  /** `int(message.attributes[name])` */
  function IntAttribute(attributes: map<string, string>, name: string): (r: Result<int, Error>)
    ensures r.Ok? <==> name in attributes && ParseInt(attributes[name]).Some?
    ensures r.Ok? ==> r.value == ParseInt(attributes[name]).value
    ensures name !in attributes ==> r == Err(KeyError(Str(name)))
    ensures name in attributes && r.Err? ==> r == Err(ValueError)
  {
    if name !in attributes then Err(KeyError(Str(name)))
    else match ParseInt(attributes[name])
      case None => Err(ValueError)
      case Some(n) => Ok(n)
  }

  /**
   * `_decode_message` after the body has been parsed: reads the receive count
   * and the sent timestamp, then stores them with the receipt handle under
   * `_metadata`, replacing any `_metadata` the body carried.
   */
  function DecodeMessage(message: Message): (r: Result<Value, Error>)
    ensures r.Ok? <==>
      && IntAttribute(message.attributes, ReceiveCountAttribute).Ok?
      && IntAttribute(message.attributes, SentTimestampAttribute).Ok?
      && message.body.Dict?
    ensures r.Ok? ==>
      && r.value.Dict?
      && r.value.entries.Keys == message.body.entries.Keys + {"_metadata"}
      && r.value.entries["_metadata"] == Metadata(
           message.receiptHandle,
           IntAttribute(message.attributes, ReceiveCountAttribute).value,
           IntAttribute(message.attributes, SentTimestampAttribute).value)
    ensures r.Ok? ==> forall k :: k in message.body.entries && k != "_metadata" ==>
      r.value.entries[k] == message.body.entries[k]
    ensures r.Err? && IntAttribute(message.attributes, ReceiveCountAttribute).Err? ==>
      r.error == IntAttribute(message.attributes, ReceiveCountAttribute).error
    ensures (IntAttribute(message.attributes, ReceiveCountAttribute).Ok?
             && IntAttribute(message.attributes, SentTimestampAttribute).Err?) ==>
      r == Err(IntAttribute(message.attributes, SentTimestampAttribute).error)
    ensures (IntAttribute(message.attributes, ReceiveCountAttribute).Ok?
             && IntAttribute(message.attributes, SentTimestampAttribute).Ok?
             && !message.body.Dict?) ==>
      r == Err(TypeError)
  {
    var retries :- IntAttribute(message.attributes, ReceiveCountAttribute);
    var createdOn :- IntAttribute(message.attributes, SentTimestampAttribute);
    if !message.body.Dict? then Err(TypeError)
    else Ok(Dict(message.body.entries["_metadata" := Metadata(message.receiptHandle, retries, createdOn)]))
  }

  // ---------------------------------------------------------------------------
  // The JSON hook for dates

  /**
   * `_json_formatter`: a datetime (checked first, since a datetime is also a
   * date) becomes `YYYY-MM-DD HH:MM:SS`, a date `YYYY-MM-DD`, anything else None.
   */
  function JsonFormatter(obj: Value): (r: Value)
    ensures obj.DateTimeV? ==>
      && r.Str? && |r.s| == 19
      && ParseDateTime(r.s) == Some(Stamp(obj.dateTime.date, obj.dateTime.hour, obj.dateTime.minute, obj.dateTime.second))
    ensures obj.DateV? ==> r.Str? && |r.s| == 10 && ParseDate(r.s) == Some(obj.date)
    ensures !IsDate(obj) ==> r == Null
  {
    if obj.DateTimeV? then
      FormatDateTimeRoundTrip(obj.dateTime);
      Str(FormatDateTime(obj.dateTime))
    else if IsDate(obj) then
      FormatDateRoundTrip(obj.date);
      Str(FormatDate(obj.date))
    else Null
  }

  /** Values `json.dumps` writes without calling its `default` hook. */
  predicate IsJson(v: Value) {
    match v
    case Null => true
    case Bool(_) => true
    case Int(_) => true
    case Str(_) => true
    case List(items) => forall i :: 0 <= i < |items| ==> IsJson(items[i])
    case Dict(entries) => forall k :: k in entries ==> IsJson(entries[k])
    case _ => false
  }

  /**
   * What `json.dumps(payload, default=_json_formatter)` writes, as a value:
   * every object JSON has no form for is replaced by what the hook returns.
   */
  function ToWire(v: Value): (w: Value)
    ensures IsJson(w)
    ensures v.Dict? <==> w.Dict?
    ensures v.Dict? ==> w.entries.Keys == v.entries.Keys
    ensures v.List? <==> w.List?
    ensures v.List? ==> |w.items| == |v.items|
    ensures IsDate(v) ==> w == JsonFormatter(v) && w.Str?
    ensures v.Object? ==> w == Null
    ensures v.Dict? ==> forall k :: k in v.entries ==> w.entries[k] == ToWire(v.entries[k])
    ensures v.List? ==> forall i :: 0 <= i < |v.items| ==> w.items[i] == ToWire(v.items[i])
  {
    match v
    case List(items) => List(seq(|items|, i requires 0 <= i < |items| => ToWire(items[i])))
    case Dict(entries) => Dict(map k | k in entries :: ToWire(entries[k]))
    case DateV(_) => JsonFormatter(v)
    case DateTimeV(_) => JsonFormatter(v)
    case Object(_, _, _) => JsonFormatter(v)
    case _ => v
  }

  /** A value JSON can already write goes over the wire unchanged. */
  lemma {:induction false} ToWireKeepsJson(v: Value)
    requires IsJson(v)
    ensures ToWire(v) == v
  {
    match v
    case List(items) =>
      forall i | 0 <= i < |items| ensures ToWire(items[i]) == items[i] {
        ToWireKeepsJson(items[i]);
      }
      assert ToWire(v).items == items;
    case Dict(entries) =>
      forall k | k in entries ensures ToWire(entries[k]) == entries[k] {
        ToWireKeepsJson(entries[k]);
      }
      assert ToWire(v).entries == entries;
    case _ =>
  }

  /** Encoding is idempotent: what went over the wire once goes over unchanged again. */
  lemma ToWireIdempotent(v: Value)
    ensures ToWire(ToWire(v)) == ToWire(v)
  {
  }


  // ---------------------------------------------------------------------------
  // The connector's text form

  function Min(a: int, b: int): int {
    if a <= b then a else b
  }

  /** `"%s******%s" % (key[0:6], key[-4:])`, with Python's clamping of short slices. */
  function MaskSecret(secretKey: string): (masked: string)
    ensures |masked| == Min(6, |secretKey|) + 6 + Min(4, |secretKey|)
    ensures masked[Min(6, |secretKey|)..Min(6, |secretKey|) + 6] == "******"
    ensures masked[..Min(6, |secretKey|)] == secretKey[..Min(6, |secretKey|)]
    ensures masked[|masked| - Min(4, |secretKey|)..] == secretKey[|secretKey| - Min(4, |secretKey|)..]
  {
    var shown := secretKey[..Min(6, |secretKey|)];
    var tail := secretKey[|secretKey| - Min(4, |secretKey|)..];
    var masked := shown + "******" + tail;
    assert masked[|shown|..|shown| + 6] == "******";
    masked
  }

  /** Only the first six and the last four characters of a key of six or more reach the text. */
  lemma MaskHidesMiddle(a: string, b: string)
    requires |a| >= 6 && |b| >= 6
    requires a[..6] == b[..6] && a[|a| - 4..] == b[|b| - 4..]
    ensures MaskSecret(a) == MaskSecret(b)
  {
  }

  /** A key of ten characters or fewer can be read back from its mask in full. */
  lemma MaskRevealsShortKey(secretKey: string)
    requires |secretKey| <= 10
    ensures var masked := MaskSecret(secretKey);
      var head := Min(6, |secretKey|);
      secretKey == masked[..head] + masked[|masked| - (|secretKey| - head)..]
  {
  }

}

=== FILE: transport.dfy ===
/**
 * The queue service the connector talks to, reduced to what the connector
 * asks of it. It stands in for the boto3 resource and the SQS service behind
 * it: named queues, the bodies sent to each, the receipt handles deleted from
 * each and the visibility delays requested per handle.
 */
module Transport {
  import opened PyValues

  /** A received message: its decoded body, its string attributes and its receipt handle. */
  datatype Message = Message(body: Value, attributes: map<string, string>, receiptHandle: string)

  /** What the connector has done to one queue. */
  datatype Queue = Queue(sent: seq<Value>, deleted: set<string>, delays: map<string, int>) {
    /** `send_message(MessageBody=body)` */
    function Send(body: Value): (q: Queue)
      ensures q.sent == sent + [body] && q.deleted == deleted && q.delays == delays
    {
      this.(sent := sent + [body])
    }

    /** `delete_messages(Entries=[{'Id': '1', 'ReceiptHandle': handle}])`; deleting twice deletes once. */
    function Delete(handle: string): (q: Queue)
      ensures q.sent == sent && q.deleted == deleted + {handle} && q.delays == delays
    {
      this.(deleted := deleted + {handle})
    }

    /** `change_message_visibility(queue, handle, delay)`: the last request for a handle wins. */
    function Delay(handle: string, delay: int): (q: Queue)
      ensures q.sent == sent && q.deleted == deleted && q.delays == delays[handle := delay]
    {
      this.(delays := delays[handle := delay])
    }
  }

  /** The queues that exist, by name. `get_queue_by_name` fails for any other name. */
  class QueueService {
    var queues: map<string, Queue>

    constructor (queues: map<string, Queue>)
      ensures this.queues == queues
    {
      this.queues := queues;
    }
  }

  /** The object `boto3.resource('sqs', ...)` returns, with the arguments it was made from. */
  class Connection {
    const region: string
    const accessKey: string
    const secretKey: string
    const useSsl: bool

    constructor (region: string, accessKey: string, secretKey: string, useSsl: bool)
      ensures this.region == region && this.accessKey == accessKey
      ensures this.secretKey == secretKey && this.useSsl == useSsl
    {
      this.region, this.accessKey, this.secretKey, this.useSsl := region, accessKey, secretKey, useSsl;
    }
  }
}

=== FILE: values.dfy ===
/**
 * The Python values that travel in job payloads, with the parts of Python's
 * semantics the connector and the worker rely on: dictionary lookup with its
 * `KeyError` and `TypeError`, and truthiness (`x or default`).
 */
module PyValues {
  import opened Wrappers
  import opened Dates

  datatype Value =
    | Null                             // None
    | Bool(b: bool)
    | Int(i: int)
    | Str(s: string)
    | List(items: seq<Value>)
    | Dict(entries: map<string, Value>)
    | DateV(date: Date)                // a `date` object
    | DateTimeV(dateTime: DateTime)    // a `datetime` object
    /**
     * Any other object without `__getitem__`, with the truth value its
     * `__bool__` or `__len__` gives it and whether it is hashable.
     */
    | Object(typeName: string, truthy: bool, hashable: bool)

  /** The exceptions the modelled code raises or lets through. */
  datatype Error =
    | KeyError(key: Value)             // a dictionary had no such key
    | TypeError                        // subscripting something that is not a dict, or an unhashable key
    | ValueError                       // `int(text)` on text that is not an integer
    | QueueDoesNotExist(queueName: string)
    | JobRaised                        // a job's `run` raised

  type Status = Outcome<Error>

  /** `isinstance(v, date)`: a datetime is a date too. */
  predicate IsDate(v: Value) {
    v.DateV? || v.DateTimeV?
  }

  /**
   * `bool(v)`: None, False, zero and empty containers are false; dates are
   * true; any other object is what its own `__bool__` or `__len__` says.
   */
  predicate Truthy(v: Value) {
    match v
    case Null => false
    case Bool(b) => b
    case Int(i) => i != 0
    case Str(s) => s != []
    case List(items) => items != []
    case Dict(entries) => entries != map[]
    case DateV(_) => true
    case DateTimeV(_) => true
    case Object(_, truthy, _) => truthy
  }

  /** `hash(v)` succeeds: whether the value can be a dictionary key. Lists and dicts cannot, nor an unhashable object. */
  predicate Hashable(v: Value) {
    !(v.List? || v.Dict? || (v.Object? && !v.hashable))
  }

  /** `v[key]` for a string key. */
  function Get(v: Value, key: string): (r: Result<Value, Error>)
    ensures r.Ok? <==> v.Dict? && key in v.entries
    ensures r.Ok? ==> r.value == v.entries[key]
    ensures r.Err? ==> r.error == if v.Dict? then KeyError(Str(key)) else TypeError
  {
    if !v.Dict? then Err(TypeError)
    else if key in v.entries then Ok(v.entries[key])
    else Err(KeyError(Str(key)))
  }

  /** `v or default` */
  function Or(v: Value, default: Value): (r: Value)
    ensures Truthy(v) ==> r == v
    ensures !Truthy(v) ==> r == default
  {
    if Truthy(v) then v else default
  }
}

=== FILE: worker.dfy ===
/**
 * The `Worker` class (sqjobs/worker.py): a registry of job classes by name,
 * and the loop that turns each payload the broker yields into a job of the
 * registered class and runs it.
 */
module Workers {
  import opened Wrappers
  import opened PyValues
  import opened Jobs

  /** A job as `execute` runs it: its class, the metadata `_build_job` copied onto it, and its arguments. */
  datatype Invocation = Invocation(
    jobClass: JobClass, retries: Value, createdOn: Value, firstExecutionOn: Value,
    args: Value, kwargs: Value)

  /** `self.registered_jobs[payload['name']]` */
  function Resolve(registry: map<string, JobClass>, payload: Value): (r: Result<JobClass, Error>)
    ensures r.Ok? <==>
      payload.Dict? && "name" in payload.entries && payload.entries["name"].Str?
      && payload.entries["name"].s in registry
    ensures r.Ok? ==> r.value == registry[payload.entries["name"].s]
    ensures payload.Dict? && "name" in payload.entries && r.Err? ==>
      r.error == if !Hashable(payload.entries["name"]) then TypeError
                 else KeyError(payload.entries["name"])
  {
    var name :- Get(payload, "name");
    if name.Str? && name.s in registry then Ok(registry[name.s])
    else if !Hashable(name) then Err(TypeError)
    else Err(KeyError(name))
  }

  /** The keys `_build_job` reads besides `name`. */
  predicate HasWorkerKeys(payload: Value) {
    && payload.Dict?
    && {"_metadata", "args", "kwargs"} <= payload.entries.Keys
    && payload.entries["_metadata"].Dict?
    && {"retries", "created_on", "first_execution_on"} <= payload.entries["_metadata"].entries.Keys
  }

  /**
   * `_build_job`, as values: the class registered under the payload's name,
   * the three metadata entries, and `args` and `kwargs` exactly as they are.
   */
  function Build(registry: map<string, JobClass>, payload: Value): (r: Result<Invocation, Error>)
    ensures r.Ok? <==> Resolve(registry, payload).Ok? && HasWorkerKeys(payload)
    ensures Resolve(registry, payload).Err? ==> r == Err(Resolve(registry, payload).error)
    ensures r.Ok? ==>
      var meta := payload.entries["_metadata"].entries;
      && r.value.jobClass == Resolve(registry, payload).value
      && r.value.retries == meta["retries"]
      && r.value.createdOn == meta["created_on"]
      && r.value.firstExecutionOn == meta["first_execution_on"]
      && r.value.args == payload.entries["args"]
      && r.value.kwargs == payload.entries["kwargs"]
  {
    var jobClass :- Resolve(registry, payload);
    var meta :- Get(payload, "_metadata");
    var retries :- Get(meta, "retries");
    var createdOn :- Get(meta, "created_on");
    var firstExecutionOn :- Get(meta, "first_execution_on");
    var args :- Get(payload, "args");
    var kwargs :- Get(payload, "kwargs");
    Ok(Invocation(jobClass, retries, createdOn, firstExecutionOn, args, kwargs))
  }

  /** The jobs `execute` started, in order, and the exception that ended it, if any. */
  datatype RunResult = RunResult(trace: seq<Invocation>, error: Option<Error>)

  function Prepend(done: seq<Invocation>, rest: RunResult): RunResult {
    RunResult(done + rest.trace, rest.error)
  }

  /**
   * The `execute` loop over a finite run of payloads: build each job, run it,
   * and stop at the first exception, whether `_build_job` or the job raised
   * it. `raises` says whether `job.run(*args, **kwargs)` raises.
   */
  function Dispatch(registry: map<string, JobClass>, payloads: seq<Value>, raises: Invocation -> bool): (r: RunResult)
    ensures |r.trace| <= |payloads|
    ensures r.error.None? ==> |r.trace| == |payloads|
    decreases |payloads|
  {
    if payloads == [] then RunResult([], None)
    else match Build(registry, payloads[0])
      case Err(e) => RunResult([], Some(e))
      case Ok(invocation) =>
        if raises(invocation) then RunResult([invocation], Some(JobRaised))
        else Prepend([invocation], Dispatch(registry, payloads[1..], raises))
  }

  /** Jobs run strictly in broker order, each with what its own payload holds, and only the last may have raised. */
  lemma {:induction false} DispatchInOrder(registry: map<string, JobClass>, payloads: seq<Value>, raises: Invocation -> bool)
    ensures var r := Dispatch(registry, payloads, raises);
      && (forall i :: 0 <= i < |r.trace| ==> Build(registry, payloads[i]) == Ok(r.trace[i]))
      && (forall i :: 0 <= i < |r.trace| - 1 ==> !raises(r.trace[i]))
      && (r.error.None? ==> forall i :: 0 <= i < |r.trace| ==> !raises(r.trace[i]))
    decreases |payloads|
  {
    if payloads != [] && Build(registry, payloads[0]).Ok? && !raises(Build(registry, payloads[0]).value) {
      DispatchInOrder(registry, payloads[1..], raises);
    }
  }

  /**
   * The loop stops at the first failure: either the next payload could not be
   * built, and its error ends the run, or the last job started raised.
   */
  lemma {:induction false} DispatchStopsAtFailure(registry: map<string, JobClass>, payloads: seq<Value>, raises: Invocation -> bool)
    ensures var r := Dispatch(registry, payloads, raises);
      r.error.Some? ==>
        || (|r.trace| < |payloads| && Build(registry, payloads[|r.trace|]) == Err(r.error.value))
        || (|r.trace| > 0 && raises(r.trace[|r.trace| - 1]) && r.error == Some(JobRaised))
    ensures var r := Dispatch(registry, payloads, raises);
      |r.trace| > 0 && raises(r.trace[|r.trace| - 1]) ==> r.error == Some(JobRaised)
    decreases |payloads|
  {
    if payloads != [] && Build(registry, payloads[0]).Ok? && !raises(Build(registry, payloads[0]).value) {
      DispatchStopsAtFailure(registry, payloads[1..], raises);
      var rest := Dispatch(registry, payloads[1..], raises);
      assert payloads[1..][|rest.trace|..] == payloads[|rest.trace| + 1..];
    }
  }

  /** A payload the registry cannot build ends the loop before any later payload is looked at. */
  lemma UnbuildableStopsRun(registry: map<string, JobClass>, payloads: seq<Value>, later: seq<Value>, raises: Invocation -> bool)
    requires payloads != [] && Build(registry, payloads[0]).Err?
    ensures Dispatch(registry, payloads + later, raises) == RunResult([], Some(Build(registry, payloads[0]).error))
  {
  }


  /** Registration order for a sequence of classes: `register_job` called on each in turn. */
  function RegisterAll(registry: map<string, JobClass>, classes: seq<JobClass>): map<string, JobClass>
    decreases |classes|
  {
    if classes == [] then registry
    else RegisterAll(registry[classes[0].name := classes[0]], classes[1..])
  }

  /** After registering a list of classes, each name maps to the last class registered under it. */
  lemma {:induction false} RegisterAllLastWins(registry: map<string, JobClass>, classes: seq<JobClass>, k: nat)
    requires k < |classes|
    requires forall j :: k < j < |classes| ==> classes[j].name != classes[k].name
    ensures var r := RegisterAll(registry, classes);
      classes[k].name in r && r[classes[k].name] == classes[k]
    decreases |classes|
  {
    if k > 0 {
      RegisterAllLastWins(registry[classes[0].name := classes[0]], classes[1..], k - 1);
    } else {
      RegisterAllKeeps(registry[classes[0].name := classes[0]], classes[1..], classes[0].name);
    }
  }

  /** Registering classes under other names leaves an entry alone. */
  lemma {:induction false} RegisterAllKeeps(registry: map<string, JobClass>, classes: seq<JobClass>, name: string)
    requires forall j :: 0 <= j < |classes| ==> classes[j].name != name
    ensures var r := RegisterAll(registry, classes);
      (name in r <==> name in registry) && (name in registry ==> r[name] == registry[name])
    decreases |classes|
  {
    if classes != [] {
      RegisterAllKeeps(registry[classes[0].name := classes[0]], classes[1..], name);
    }
  }

  /** `Worker(broker, queue_name)`; the broker is only carried, never looked into. */
  class Worker<Broker> {
    const broker: Broker
    const queueName: string
    var registeredJobs: map<string, JobClass>

    constructor (broker: Broker, queueName: string)
      ensures this.broker == broker && this.queueName == queueName
      ensures registeredJobs == map[]
    {
      this.broker := broker;
      this.queueName := queueName;
      registeredJobs := map[];
    }

    /** `register_job`: the class goes under its `name()`, replacing any class there; other names keep theirs. */
    method RegisterJob(jobClass: JobClass)
      modifies this
      ensures registeredJobs == old(registeredJobs)[jobClass.name := jobClass]
    {
      registeredJobs := registeredJobs[jobClass.name := jobClass];
    }

    /** `_build_job`: a fresh job of the resolved class carrying the payload's metadata. */
    method BuildJob(payload: Value) returns (r: Result<(Job, Value, Value), Error>)
      ensures Build(registeredJobs, payload).Err? ==> r == Err(Build(registeredJobs, payload).error)
      ensures Build(registeredJobs, payload).Ok? ==>
        var b := Build(registeredJobs, payload).value;
        && r.Ok?
        && var (job, args, kwargs) := r.value;
        && fresh(job) && job.jobClass == b.jobClass
        && job.retries == Some(b.retries) && job.createdOn == Some(b.createdOn)
        && job.firstExecutionOn == Some(b.firstExecutionOn)
        && job.id == None && job.queueName == None && job.brokerId == None
        && args == b.args && kwargs == b.kwargs
    {
      var jobClass :- Resolve(registeredJobs, payload);
      var job := new Job(jobClass);
      var meta :- Get(payload, "_metadata");
      var retries :- Get(meta, "retries");
      job.retries := Some(retries);
      var createdOn :- Get(meta, "created_on");
      job.createdOn := Some(createdOn);
      var firstExecutionOn :- Get(meta, "first_execution_on");
      job.firstExecutionOn := Some(firstExecutionOn);
      var args :- Get(payload, "args");
      var kwargs :- Get(payload, "kwargs");
      return Ok((job, args, kwargs));
    }

    /**
     * `execute` over the payloads the broker yields: build and run each job
     * in turn; an exception ends the loop. The registry is not modified.
     */
    method Execute(payloads: seq<Value>, raises: Invocation -> bool) returns (trace: seq<Invocation>, error: Option<Error>)
      ensures RunResult(trace, error) == Dispatch(registeredJobs, payloads, raises)
    {
      trace, error := [], None;
      var i := 0;
      while i < |payloads|
        invariant i <= |payloads|
        invariant Dispatch(registeredJobs, payloads, raises)
          == Prepend(trace, Dispatch(registeredJobs, payloads[i..], raises))
      {
        assert payloads[i..][0] == payloads[i] && payloads[i..][1..] == payloads[i + 1..];
        var built := BuildJob(payloads[i]);
        if built.Err? {
          error := Some(built.error);
          return;
        }
        var (job, args, kwargs) := built.value;
        var invocation := Invocation(job.jobClass, job.retries.value, job.createdOn.value,
                                     job.firstExecutionOn.value, args, kwargs);
        trace := trace + [invocation];
        if raises(invocation) {
          error := Some(JobRaised);
          return;
        }
        i := i + 1;
      }
    }
  }
}

=== FILE: wrappers.dfy ===
/** Failure-compatible wrappers shared by every module of the model. */
module Wrappers {

  datatype Option<+T> = None | Some(value: T)

  /** The outcome of a Python call that either returns a value or raises `error`. */
  datatype Result<+T, +E> = Ok(value: T) | Err(error: E) {
    predicate IsFailure() { Err? }

    function PropagateFailure<U>(): Result<U, E>
      requires Err?
    {
      Err(error)
    }

    function Extract(): T
      requires Ok?
    {
      value
    }
  }

  /** The outcome of a Python call whose return value is `None`. */
  datatype Outcome<+E> = Pass | Fail(error: E)
}
